=== FILE: README.md ===
# Music store point-of-sale client: catalog and form logic

This project models the data-shaping logic of the browser client (`app.js`) of
a point-of-sale tool for a music shop that sells each album as vinyl, CD and
cassette. It leaves out the client's DOM reads and writes and its HTTP calls.
What remains is the following, each with proved properties:

- **Catalog grouping** (`Catalog`). Inventory rows, one per (product, format)
  record, are folded into one summary per product. The client keeps these in a
  JavaScript `Map`; here it is a sequence looked up by id, in insertion order.
- **Stock figures** (`Stock`). A card's total stock and its `stock-low` /
  `stock-ok` class. The product details view also sums one product's rows
  directly; the model proves the two views agree when both are built from
  all of that product's rows (the unfiltered catalog).
- **Search** (`Search`). The case-insensitive substring filter over title,
  artist and genre.
- **Format names** (`Formats`). The id-to-name ternary, which the client
  repeats in three places.
- **Catalog filter** (`CatalogQuery`). The drop-down value becomes the
  inventory request URL.
- **Add product** (`AddProduct`). The checked format boxes and their quantity
  fields become the request's `formats` array. A form with no box checked is
  refused.
- **Restock** (`Restock`). The pre-filled heading, the current and new
  quantity for a chosen format, and the request body.
- **Order form** (`OrderForm`). Item rows and the "at least one item" check.
  The check as written can never pass (see Findings).
- **Text primitives** (`Text`). `toLowerCase` (ASCII letters), `includes`, and
  the global `parseInt` with no radix. `parseInt` skips leading white space,
  reads a sign, reads a `0x` prefix as hexadecimal, and takes the longest digit
  run; `NaN` is `None`. Also `String(n)` for integers.

All functions are pure, over `seq` and immutable datatypes. `Wrappers` holds
`Option` and `Result`.

The client contains no order processing, stock ledger or reservation. It only
posts requests, so none of that is modelled. Format entries stay in row order,
as `loadCatalog` pushes them.

## Model

| member | source | states |
|---|---|---|
| Text.Lower | app.js:163 | lowercasing keeps the length, turns each upper-case letter into its own lower-case letter, leaves no upper-case letter and changes nothing else |
| Text.LowerEqualIff | app.js:163-176 | two strings lowercase to the same text exactly when they have the same length and agree letter by letter up to ASCII case |
| Text.LowerEmpty | app.js:163-166 | the lowercased term is empty exactly when the typed input is empty |
| Text.Contains | app.js:174-176 | a string contains only strings no longer than itself, and always contains the empty string (the meaning of `includes` is stated by `ContainsIff`) |
| Text.ContainsIff | app.js:174-176 | `s.includes(t)` holds exactly when `t` occurs at some start index of `s` |
| Text.ParseInt | app.js:401 | a field that is empty or holds only white space reads as `NaN`; numerals read back exactly (`ParseIntRoundTrip`) |
| Text.IntOrZero | app.js:316 | `parseInt(v) \|\| 0`: 0 when the field does not parse, otherwise the parsed integer |
| Text.ParseIntRoundTrip | app.js:426-430 | `parseInt` of the decimal text of any integer gives back that integer |
| Formats.FormatName | app.js:64-69 | "Vinyl" exactly for id 1, "CD" exactly for id 2, "Cassette" for every other id |
| Formats.FormatNameOfId | app.js:514-515 | on the three real formats the ternary agrees with the format enumeration's names |
| Formats.FormatNameEqualIff | app.js:64-69 | two ids get the same name exactly when they are equal or neither is 1 or 2: the name identifies ids 1 and 2 only |
| Formats.FormatIdInjective | app.js:686-688 | the three formats have pairwise distinct ids |
| Catalog.IndexOf | app.js:50 | the lookup finds a summary carrying the id, and finds none exactly when no summary has it |
| Catalog.Aggregate | app.js:47-76 | there are never more summaries than rows, and there is none exactly when there are no rows (the grouping itself is stated by `AggregateGroups`) |
| Catalog.AddRowShape | app.js:49-73 | a row appends its entry to its product's existing summary, or adds a new summary holding only that entry |
| Catalog.AggregateGroups | app.js:47-76 | the result has a summary for every row's product and only for those; summaries are in first-appearance order; each takes title, artist, genre and price from its product's first row; each lists exactly its own rows' entries, in row order |
| Catalog.AggregateDistinct | app.js:47-59 | no two summaries share a product id |
| Stock.TotalStock | app.js:109 | with non-negative quantities the card total is non-negative; it adds up a product's rows (`EntriesStock`, `CardStockOfAggregate`) |
| Stock.StockClass | app.js:110 | "stock-low" exactly when the total is below 10, "stock-ok" exactly when it is 10 or more |
| Stock.CardStock | app.js:109-110 | a card shows the total of its format quantities and the class of that total |
| Stock.RowsQuantity | app.js:472 | with non-negative quantities the details total is non-negative; it equals the card total for the same product (`DetailsMatchCard`) |
| Stock.RowsOf | app.js:467-472 | the rows requested for a product (`?productId=`) are at most all rows, each has that product's id, and they are exactly the input rows with that id (`RowsOfExactly`) |
| Stock.RowsOfExactly | app.js:467-472 | the rows kept for a product are exactly the input rows carrying its id: none dropped, none invented |
| Stock.TotalStockAppend | app.js:109 | the total over two entry lists is the sum of their totals |
| Stock.TotalStockBounds | app.js:109 | with non-negative quantities the total is non-negative and at least each format's quantity, zero-stock formats included |
| Stock.EntriesStock | app.js:109 | a product's format total equals the sum of its own rows' quantities |
| Stock.CardStockOfAggregate | app.js:108-110 | a card's total is its product's row quantity sum, and its class is "stock-low" exactly when that sum is below 10, else "stock-ok" |
| Stock.AddRowSums | app.js:62-72 | one row adds exactly one format entry to the catalog and exactly its quantity to the catalog's stock |
| Stock.AggregateConserves | app.js:47-76 | the catalog holds as many format entries as there are rows, and the card totals add up to the sum of all row quantities |
| Stock.DetailsOf | app.js:470-523 | the details view is empty exactly for no rows, and otherwise has one table line per row |
| Stock.DetailsMatchCard | app.js:470-523 | for one product's rows the catalog has exactly one card, whose header, total and format badges equal the details header, total and table |
| Search.Refine | app.js:163-169 | an empty input shows the catalog unchanged |
| Search.Matches | app.js:173-176 | the three-way `includes` test on lowercased title, artist and genre, with `includes` fixed by `Text.ContainsIff`; every product matches the empty term |
| Search.FilterMatching | app.js:172-177 | the filter keeps no more products than it is given, and each kept product matches the term |
| Search.FilterPositions | app.js:172-177 | the filter keeps, in increasing position order, exactly the positions whose product matches the term |
| Search.RefineSelects | app.js:163-179 | for non-empty input the shown list is the order-preserving subsequence of exactly the products whose lowercased title, artist or genre contains the lowercased input |
| Search.RefineIdempotent | app.js:172-177 | searching the shown list again with the same input changes nothing |
| Search.RefineCaseInsensitive | app.js:163-176 | two inputs that differ only in ASCII letter case show the same products |
| Search.MatchesWeaken | app.js:174-176 | a product matching a term matches every substring of that term |
| Search.RefineNarrows | app.js:162-179 | when the new term contains the previous one, searching the whole catalog equals searching the previous results |
| CatalogQuery.CatalogUrl | app.js:34-39 | every request URL starts with the inventory endpoint |
| CatalogQuery.CatalogUrlShape | app.js:34-39 | the URL is the bare endpoint exactly for values other than vinyl, cd, cassette and lowstock; "lowstock" appends `?lowstock=true` |
| CatalogQuery.FormatFilterSelectsFormat | app.js:36-38 | each format's lowercased display name is a recognised filter value, and it requests `?formatId=` followed by that format's own id |
| CatalogQuery.CatalogUrlInjective | app.js:36-39 | different recognised filter values produce different URLs |
| AddProduct.CollectFormats | app.js:312-330 | format ids come out strictly increasing, all in 1..3, so no format appears twice |
| AddProduct.CollectFormatsContents | app.js:312-336 | a format has an entry exactly when its box is checked; each entry carries that format's own quantity reading; the array is empty exactly when no box is checked |
| AddProduct.BuildRequest | app.js:332-347 | the submission is refused with "no format selected" exactly when no box is checked; otherwise the request copies the title, artist, release date, genre and label fields and carries the collected non-empty format array |
| AddProduct.QuantityFieldReading | app.js:314-317 | an unparsable quantity field contributes 0, and the decimal text of a number contributes that number |
| Restock.HeadingOf | app.js:391-396 | nothing is filled exactly when the product has no rows; otherwise the id is the first row's |
| Restock.FindFormat | app.js:402 | the lookup returns the first row with the format id, and none exactly when no row has it |
| Restock.PrefillFor | app.js:399-409 | the new-quantity field is 0 when "N/A" is shown, and otherwise equals the shown current quantity |
| Restock.PrefillShowsStock | app.js:400-409 | choosing a stocked format shows and proposes the quantity of the first row with that format, as `find` returns it; choosing an unstocked one shows "N/A" and proposes 0 |
| Restock.UpdateOf | app.js:426-430 | a field that is empty or only white space is sent as `null` |
| Restock.UpdateOfNumerals | app.js:426-430 | fields holding decimal numerals are sent as the integers they spell |
| Restock.UnchangedSubmitKeepsQuantity | app.js:426-430 | submitting the pre-filled form unchanged sends the product id, the chosen format and the shown quantity |
| OrderForm.Apply | app.js:675-716 | adding, removing or editing an item row never changes `orderItems` |
| OrderForm.Submit | app.js:596-609 | as written, the order is refused exactly when `orderItems` is empty |
| OrderForm.RunKeepsOrderItems | app.js:587-609 | no sequence of item-row events changes `orderItems` |
| OrderForm.SubmitAlwaysRefused | app.js:587-609 | as written, every submission after opening the form is refused, whatever rows were added |
| OrderForm.OneFilledRowRefused | app.js:596-604 | a form with one filled-in item row on screen is still refused |
| OrderForm.SubmitCollected | app.js:596-609 | the corrected handler refuses with "no items" exactly when no item row is on screen, and otherwise sends exactly the rows on screen, in screen order |
| OrderForm.FilledRowIsSent | app.js:596-609 | for any form, adding a row and filling it in makes the corrected handler accept the order with that row as its last item, while the handler as written still refuses it |
| OrderForm.AddedRowsAreSent | app.js:675-707 | n clicks on "add item" append n fresh rows, and for n > 0 the corrected handler accepts the order |

## Left out

- DOM access and HTML string building: card markup, badges, modal show and
  close, check-box visibility, product selection highlighting, the
  `showMessage` timers (app.js:91-153, 188-298, 785-793). These are
  presentation, not logic.
- Every `fetch` call and JSON parsing. The rows the listing returns are an
  input to `Catalog.Aggregate`. The requests the forms would post are the
  values `AddProduct.BuildRequest`, `Restock.UpdateOf` and `OrderForm.Submit`
  return.
- `server.js` is not part of this model. It is Express routing plus one SQL
  query. That query returns `FormatName` and omits the ProductID, FormatID,
  SKU and Genre columns the client reads. It also serves `/inventory`
  rather than `/api/inventory` and ignores every query string (server.js:18-31).
  The model takes the rows as the client reads them.
- Stock.RowsOf: the `?productId=`, `?formatId=` and `?lowstock=` listings
  (app.js:34-39, 467) are assumed to be server-side filters returning exactly
  the matching rows; the server shown does not implement them. A card built
  from a filtered listing (say `?formatId=1`) totals only the rows of that
  listing, so it can differ from the details total of the same product.
- `updateOrderTotal` (app.js:760-769) and every price display. These are IEEE
  floating point via `parseFloat` and `toFixed(2)`. Catalog prices are
  carried as `real` and only copied.
- The price-fetch helper `getInventoryInfo` (app.js:723-754) and the customer
  forms (app.js:541-580, 646-669). These are fetch-and-fill pass-through with
  no logic beyond what is modelled elsewhere.
- Stock reservation, overselling, concurrency and restock semantics on the
  server. None of these is in the client code.
- AddProduct.BuildRequest: the request carries the price field's text, not
  `parseFloat` of it (app.js:345), because floating-point parsing is not
  modelled. An unparsable price, which the client sends as `null`, is not
  distinguished.
- Text.Lower: models ASCII lowercasing only, because JavaScript's
  `toLowerCase` applies full Unicode case mapping.
- Text.ParseIntRoundTrip: exact for every integer, because the model's
  integers are unbounded. JavaScript numbers lose precision above 2^53.
  Sums of quantities are likewise exact.
- Formats.FormatName: the order-line alert (app.js:744) compares the format
  `<select>` text with loose `==`. The model uses the integer value of the
  options "1", "2", "3".
- Search.RefineSelects: assumes title, artist and genre are strings. A `null`
  column would make the client's handler throw.
- Browser constraint validation (`required`, `min` on the inputs) is not
  modelled. It can block a submit event before the handlers run.

## Findings

| source | as written | input that shows it | evidently intended | confidence | as-written member | corrected member |
|---|---|---|---|---|---|---|
| app.js:587-609 | The submit handler tests and posts the global `orderItems`. It is reset to `[]` at line 587, and `addOrderItem` only inserts HTML. | Open the order form, add one item row, fill it in (product 7, format 1, quantity 2, price 19.99), then submit. | Collect the item rows on screen. Refuse only when there are none, and otherwise post them in screen order. | medium (not executed; the page's HTML, which could fill `orderItems`, is not part of this model) | OrderForm.SubmitAlwaysRefused | OrderForm.AddedRowsAreSent |

=== FILE: add_product.dfy ===
/** The add-product form (`setupAddProductForm`): the checked format boxes
    and their quantity fields become the `formats` array of the request,
    and a form with no box checked is refused before anything is sent. */
module AddProduct {
  import opened Wrappers
  import opened Text
  import opened Formats

  /** One format's check box and the text of its quantity field. */
  datatype FormatChoice = FormatChoice(checked: bool, quantityText: string)

  /** The values of the add-product form. */
  datatype AddForm = AddForm(
    vinyl: FormatChoice,
    cd: FormatChoice,
    cassette: FormatChoice,
    title: string,
    artist: string,
    releaseDate: string,
    genre: string,
    recordLabel: string,
    priceText: string)

  /** One element of the request's `formats` array. */
  datatype FormatRequest = FormatRequest(formatId: int, quantity: int)

  /** The request body. `priceText` is the field text the client hands to
      `parseFloat`. */
  datatype ProductRequest = ProductRequest(
    title: string,
    artist: string,
    releaseDate: string,
    genre: string,
    recordLabel: string,
    priceText: string,
    formats: seq<FormatRequest>)

  datatype AddError = NoFormatSelected

  /** The message the form shows when it refuses a submission. */
  function Message(e: AddError): (text: string) {
    match e
    case NoFormatSelected => "Please select at least one format"
  }

  /** The form's check box for a format. */
  function ChoiceFor(form: AddForm, f: Format): (choice: FormatChoice) {
    match f
    case Vinyl => form.vinyl
    case CD => form.cd
    case Cassette => form.cassette
  }

  /** The entry a checked box contributes: its id and `parseInt(text) || 0`. */
  function RequestFor(form: AddForm, f: Format): (request: FormatRequest) {
    FormatRequest(f.Id(), IntOrZero(ChoiceFor(form, f).quantityText))
  }

  function IfChecked(form: AddForm, f: Format): (r: seq<FormatRequest>)
    ensures |r| <= 1
    ensures |r| == 1 <==> ChoiceFor(form, f).checked
    ensures forall i :: 0 <= i < |r| ==> r[i] == RequestFor(form, f) && r[i].formatId == f.Id()
  {
    if ChoiceFor(form, f).checked then [RequestFor(form, f)] else []
  }

  /** The `formats` array, built by testing the boxes in the order Vinyl,
      CD, Cassette. Ids come out strictly increasing, so no format twice. */
  function CollectFormats(form: AddForm): (r: seq<FormatRequest>)
    ensures forall i, j :: 0 <= i < j < |r| ==> r[i].formatId < r[j].formatId
    ensures forall i :: 0 <= i < |r| ==> 1 <= r[i].formatId <= 3
  {
    var a, b, c := IfChecked(form, Vinyl), IfChecked(form, CD), IfChecked(form, Cassette);
    assert forall i :: 0 <= i < |a + b| ==> (a + b)[i] in a || (a + b)[i] in b;
    a + b + c
  }

  /** The array holds an entry for a format exactly when its box is
      checked, and every entry is a checked format's id with the reading of
      that format's own quantity field. */
  lemma CollectFormatsContents(form: AddForm)
    ensures forall f: Format :: ChoiceFor(form, f).checked <==> RequestFor(form, f) in CollectFormats(form)
    ensures forall e :: e in CollectFormats(form) ==>
      exists f: Format :: ChoiceFor(form, f).checked && e == RequestFor(form, f)
    ensures |CollectFormats(form)| == 0 <==> !AnyChecked(form)
  {
    var r := CollectFormats(form);
    var a, b, c := IfChecked(form, Vinyl), IfChecked(form, CD), IfChecked(form, Cassette);
    assert r == a + b + c;
    forall e | e in r
      ensures exists f: Format :: ChoiceFor(form, f).checked && e == RequestFor(form, f)
    {
      if e in a {
        assert ChoiceFor(form, Vinyl).checked && e == RequestFor(form, Vinyl);
      } else if e in b {
        assert ChoiceFor(form, CD).checked && e == RequestFor(form, CD);
      } else {
        assert ChoiceFor(form, Cassette).checked && e == RequestFor(form, Cassette);
      }
    }
    forall f: Format ensures ChoiceFor(form, f).checked <==> RequestFor(form, f) in r {
      if RequestFor(form, f) in r {
        var g :| ChoiceFor(form, g).checked && RequestFor(form, f) == RequestFor(form, g);
        FormatIdInjective(f, g);
      }
    }
  }

  predicate AnyChecked(form: AddForm) {
    form.vinyl.checked || form.cd.checked || form.cassette.checked
  }

  /** The submit handler up to the point the request would be sent. */
  function BuildRequest(form: AddForm): (r: Result<ProductRequest, AddError>)
    ensures r.Failure? <==> !AnyChecked(form)
    ensures r.Failure? ==> r.error == NoFormatSelected
    ensures r.Success? ==> |r.value.formats| > 0 && r.value.formats == CollectFormats(form)
    ensures r.Success? ==>
      && r.value.title == form.title && r.value.artist == form.artist
      && r.value.releaseDate == form.releaseDate && r.value.genre == form.genre
      && r.value.recordLabel == form.recordLabel && r.value.priceText == form.priceText
  {
    var formats := CollectFormats(form);
    if |formats| == 0 then Failure(NoFormatSelected)
    else Success(ProductRequest(form.title, form.artist, form.releaseDate, form.genre,
                                form.recordLabel, form.priceText, formats))
  }

  /** A quantity field that does not start with a number contributes 0,
      and one holding the decimal text of a number contributes that number. */
  lemma QuantityFieldReading(form: AddForm, f: Format, n: int)
    ensures ParseInt(ChoiceFor(form, f).quantityText).None? ==> RequestFor(form, f).quantity == 0
    ensures ChoiceFor(form, f).quantityText == IntToString(n) ==> RequestFor(form, f).quantity == n
  {
    ParseIntRoundTrip(n);
  }
}

=== FILE: catalog.dfy ===
/** The catalog grouping in `loadCatalog`: flat inventory rows, one per
    (product, format) record, are folded into one summary per product.
    The client keeps the summaries in a JavaScript `Map`, which iterates in
    insertion order; here the map is the sequence of summaries itself,
    looked up by id. */
module Catalog {
  import opened Wrappers
  import opened Formats

  /** One inventory row as the listing returns it. */
  datatype Row = Row(
    productId: int,
    title: string,
    artist: string,
    genre: string,
    price: real,
    formatId: int,
    quantity: int,
    sku: string)

  /** One entry of a summary's `formats` array. */
  datatype FormatEntry = FormatEntry(id: int, name: string, quantity: int, sku: string)

  /** One product summary of the catalog. */
  datatype Product = Product(
    id: int,
    title: string,
    artist: string,
    genre: string,
    price: real,
    formats: seq<FormatEntry>)

  /** The format entry a row contributes. */
  function EntryOf(r: Row): (e: FormatEntry) {
    FormatEntry(r.formatId, FormatName(r.formatId), r.quantity, r.sku)
  }

  /** The summary a row creates when its product is first seen: product
      fields copied, no formats yet. */
  function HeaderOf(r: Row): (p: Product) {
    Product(r.productId, r.title, r.artist, r.genre, r.price, [])
  }

  /** `productMap.has(id)` / `productMap.get(id)`: the position of the
      summary keyed `id`, if any. */
  function IndexOf(ps: seq<Product>, id: int): (k: Option<nat>)
    ensures k.Some? ==> k.value < |ps| && ps[k.value].id == id
    ensures k.None? <==> forall j :: 0 <= j < |ps| ==> ps[j].id != id
  {
    if |ps| == 0 then None
    else if ps[0].id == id then Some(0)
    else match IndexOf(ps[1..], id)
      case None => None
      case Some(k) => Some(k + 1)
  }

  /** First half of one `forEach` step: create the summary if the id is new. */
  function EnsureProduct(ps: seq<Product>, r: Row): (ps': seq<Product>) {
    if IndexOf(ps, r.productId).None? then ps + [HeaderOf(r)] else ps
  }

  /** Second half: `productMap.get(id).formats.push(e)`. */
  function PushEntry(ps: seq<Product>, id: int, e: FormatEntry): (ps': seq<Product>) {
    match IndexOf(ps, id)
    case None => ps
    case Some(k) => ps[k := ps[k].(formats := ps[k].formats + [e])]
  }

  /** One iteration of the `forEach` over the rows. */
  function AddRow(ps: seq<Product>, r: Row): (ps': seq<Product>) {
    PushEntry(EnsureProduct(ps, r), r.productId, EntryOf(r))
  }

  /** `Array.from(productMap.values())` after folding every row, left to right. */
  function Aggregate(rows: seq<Row>): (ps: seq<Product>)
    ensures |ps| <= |rows|
    ensures |ps| == 0 <==> |rows| == 0
  {
    if |rows| == 0 then []
    else
      var front := Aggregate(rows[..|rows| - 1]);
      AddRowShape(front, rows[|rows| - 1]);
      AddRow(front, rows[|rows| - 1])
  }

  // ------------------------------------------------- reference description

  /** Index of the first row of product `id`, or `|rows|` if there is none. */
  function FirstRow(rows: seq<Row>, id: int): (i: nat)
    ensures i <= |rows|
    ensures i < |rows| ==> rows[i].productId == id
    ensures forall j :: 0 <= j < i ==> rows[j].productId != id
  {
    if |rows| == 0 then 0
    else if rows[0].productId == id then 0
    else 1 + FirstRow(rows[1..], id)
  }

  /** The entries of every row of product `id`, in row order. */
  function EntriesFor(rows: seq<Row>, id: int): (es: seq<FormatEntry>)
    ensures |es| <= |rows|
  {
    if |rows| == 0 then []
    else EntriesFor(rows[..|rows| - 1], id)
         + (if rows[|rows| - 1].productId == id then [EntryOf(rows[|rows| - 1])] else [])
  }

  /** Every row's product has a summary. */
  ghost predicate Covers(rows: seq<Row>, ps: seq<Product>) {
    forall i :: 0 <= i < |rows| ==> IndexOf(ps, rows[i].productId).Some?
  }

  /** Every summary is that of a product that has a row. */
  ghost predicate Sourced(rows: seq<Row>, ps: seq<Product>) {
    forall k :: 0 <= k < |ps| ==> FirstRow(rows, ps[k].id) < |rows|
  }

  /** Summaries appear in the order their products first appear in the rows. */
  ghost predicate FirstSeenOrder(rows: seq<Row>, ps: seq<Product>) {
    forall i, j :: 0 <= i < j < |ps| ==> FirstRow(rows, ps[i].id) < FirstRow(rows, ps[j].id)
  }

  /** A summary's product fields are those of its product's first row. */
  ghost predicate FirstRowHeaders(rows: seq<Row>, ps: seq<Product>)
    requires Sourced(rows, ps)
  {
    forall k :: 0 <= k < |ps| ==> ps[k].(formats := []) == HeaderOf(rows[FirstRow(rows, ps[k].id)])
  }

  /** A summary's formats are the entries of exactly its own rows, in order. */
  ghost predicate OwnEntries(rows: seq<Row>, ps: seq<Product>) {
    forall k :: 0 <= k < |ps| ==> ps[k].formats == EntriesFor(rows, ps[k].id)
  }

  /** `ps` is the grouping of `rows`. */
  ghost predicate Grouped(rows: seq<Row>, ps: seq<Product>) {
    && Covers(rows, ps)
    && Sourced(rows, ps)
    && FirstSeenOrder(rows, ps)
    && FirstRowHeaders(rows, ps)
    && OwnEntries(rows, ps)
  }

  // ------------------------------------------------------------ step facts

  lemma FirstRowUnique(rows: seq<Row>, id: int, i: nat)
    requires i <= |rows|
    requires i < |rows| ==> rows[i].productId == id
    requires forall j :: 0 <= j < i ==> rows[j].productId != id
    ensures FirstRow(rows, id) == i
  {
  }

  lemma FirstRowSnoc(rows: seq<Row>, r: Row, id: int)
    ensures FirstRow(rows, id) < |rows| ==> FirstRow(rows + [r], id) == FirstRow(rows, id)
    ensures FirstRow(rows, id) == |rows| && r.productId == id ==> FirstRow(rows + [r], id) == |rows|
  {
    var i := FirstRow(rows, id);
    assert forall j :: 0 <= j < |rows| ==> (rows + [r])[j] == rows[j];
    if i < |rows| || r.productId == id {
      FirstRowUnique(rows + [r], id, i);
    }
  }

  lemma EntriesForSnoc(rows: seq<Row>, r: Row, id: int)
    ensures EntriesFor(rows + [r], id)
         == EntriesFor(rows, id) + (if r.productId == id then [EntryOf(r)] else [])
  {
    assert (rows + [r])[..|rows|] == rows;
  }

  lemma {:induction false} EntriesForAbsent(rows: seq<Row>, id: int)
    requires FirstRow(rows, id) == |rows|
    ensures EntriesFor(rows, id) == []
    decreases |rows|
  {
    if |rows| > 0 {
      var front := rows[..|rows| - 1];
      FirstRowUnique(front, id, |front|);
      EntriesForAbsent(front, id);
    }
  }

  /** What one `forEach` step does to the summaries: append to the existing
      summary of the row's product, or append a new summary holding just
      this row's entry. */
  lemma AddRowShape(ps: seq<Product>, r: Row)
    ensures IndexOf(ps, r.productId).Some? ==>
      var k := IndexOf(ps, r.productId).value;
      AddRow(ps, r) == ps[k := ps[k].(formats := ps[k].formats + [EntryOf(r)])]
    ensures IndexOf(ps, r.productId).None? ==>
      AddRow(ps, r) == ps + [HeaderOf(r).(formats := [EntryOf(r)])]
  {
    if IndexOf(ps, r.productId).None? {
      var qs := ps + [HeaderOf(r)];
      assert EnsureProduct(ps, r) == qs;
      var k := IndexOf(qs, r.productId);
      assert qs[|ps|].id == r.productId;
      assert forall j :: 0 <= j < |ps| ==> qs[j] == ps[j];
      assert k == Some(|ps|);
      var x := HeaderOf(r).(formats := [EntryOf(r)]);
      assert qs[|ps|].(formats := qs[|ps|].formats + [EntryOf(r)]) == x;
      assert qs[|ps| := x] == ps + [x];
    }
  }

  /** The updated summary when the row's product already has one. */
  function Appended(ps: seq<Product>, k: nat, r: Row): (ps': seq<Product>)
    requires k < |ps|
  {
    ps[k := ps[k].(formats := ps[k].formats + [EntryOf(r)])]
  }

  /** The summaries when the row's product is new. */
  function Extended(ps: seq<Product>, r: Row): (ps': seq<Product>) {
    ps + [HeaderOf(r).(formats := [EntryOf(r)])]
  }

  lemma ExistingCovers(rows: seq<Row>, ps: seq<Product>, r: Row, k: nat)
    requires Covers(rows, ps) && k < |ps| && ps[k].id == r.productId
    ensures Covers(rows + [r], Appended(ps, k, r))
  {
    var rows', ps' := rows + [r], Appended(ps, k, r);
    forall i | 0 <= i < |rows'| ensures IndexOf(ps', rows'[i].productId).Some? {
      if i < |rows| {
        assert rows'[i] == rows[i];
        var m := IndexOf(ps, rows[i].productId).value;
        assert ps'[m].id == rows'[i].productId;
      } else {
        assert ps'[k].id == rows'[i].productId;
      }
    }
  }

  lemma ExistingKeepsOrder(rows: seq<Row>, ps: seq<Product>, r: Row, k: nat)
    requires Sourced(rows, ps) && FirstSeenOrder(rows, ps) && FirstRowHeaders(rows, ps)
    requires k < |ps| && ps[k].id == r.productId
    ensures Sourced(rows + [r], Appended(ps, k, r))
    ensures FirstSeenOrder(rows + [r], Appended(ps, k, r))
    ensures FirstRowHeaders(rows + [r], Appended(ps, k, r))
  {
    var rows', ps' := rows + [r], Appended(ps, k, r);
    forall m | 0 <= m < |ps'|
      ensures ps'[m].id == ps[m].id
      ensures FirstRow(rows', ps'[m].id) == FirstRow(rows, ps[m].id) < |rows|
      ensures rows'[FirstRow(rows', ps'[m].id)] == rows[FirstRow(rows, ps[m].id)]
      ensures ps'[m].(formats := []) == ps[m].(formats := [])
    {
      FirstRowSnoc(rows, r, ps[m].id);
    }
  }

  lemma ExistingEntries(rows: seq<Row>, ps: seq<Product>, r: Row, k: nat)
    requires FirstSeenOrder(rows, ps) && OwnEntries(rows, ps)
    requires k < |ps| && ps[k].id == r.productId
    ensures OwnEntries(rows + [r], Appended(ps, k, r))
  {
    var rows', ps' := rows + [r], Appended(ps, k, r);
    forall m | 0 <= m < |ps'| ensures ps'[m].formats == EntriesFor(rows', ps'[m].id) {
      EntriesForSnoc(rows, r, ps[m].id);
      if m < k {
        assert FirstRow(rows, ps[m].id) < FirstRow(rows, ps[k].id);
      } else if m > k {
        assert FirstRow(rows, ps[k].id) < FirstRow(rows, ps[m].id);
      }
    }
  }

  /** No row precedes the first row of a product that has no summary yet. */
  lemma NewProductFirstAtEnd(rows: seq<Row>, ps: seq<Product>, r: Row)
    requires Covers(rows, ps)
    requires forall j :: 0 <= j < |ps| ==> ps[j].id != r.productId
    ensures FirstRow(rows, r.productId) == |rows|
    ensures FirstRow(rows + [r], r.productId) == |rows|
    ensures EntriesFor(rows, r.productId) == []
  {
    forall i | 0 <= i < |rows| ensures rows[i].productId != r.productId {
      var m := IndexOf(ps, rows[i].productId).value;
      assert ps[m].id == rows[i].productId;
    }
    FirstRowUnique(rows, r.productId, |rows|);
    FirstRowSnoc(rows, r, r.productId);
    EntriesForAbsent(rows, r.productId);
  }

  lemma NewCovers(rows: seq<Row>, ps: seq<Product>, r: Row)
    requires Covers(rows, ps)
    ensures Covers(rows + [r], Extended(ps, r))
  {
    var rows', ps' := rows + [r], Extended(ps, r);
    forall i | 0 <= i < |rows'| ensures IndexOf(ps', rows'[i].productId).Some? {
      if i < |rows| {
        assert rows'[i] == rows[i];
        var m := IndexOf(ps, rows[i].productId).value;
        assert ps'[m].id == rows'[i].productId;
      } else {
        assert ps'[|ps|].id == rows'[i].productId;
      }
    }
  }

  /** Summaries already present keep their id, first row and header. */
  lemma NewKeepsOld(rows: seq<Row>, ps: seq<Product>, r: Row, m: nat)
    requires Sourced(rows, ps) && m < |ps|
    ensures Extended(ps, r)[m] == ps[m]
    ensures FirstRow(rows + [r], ps[m].id) == FirstRow(rows, ps[m].id) < |rows|
    ensures (rows + [r])[FirstRow(rows, ps[m].id)] == rows[FirstRow(rows, ps[m].id)]
  {
    FirstRowSnoc(rows, r, ps[m].id);
  }

  lemma NewSourced(rows: seq<Row>, ps: seq<Product>, r: Row)
    requires Covers(rows, ps) && Sourced(rows, ps)
    requires forall j :: 0 <= j < |ps| ==> ps[j].id != r.productId
    ensures Sourced(rows + [r], Extended(ps, r))
  {
    var rows', ps' := rows + [r], Extended(ps, r);
    NewProductFirstAtEnd(rows, ps, r);
    forall m | 0 <= m < |ps'| ensures FirstRow(rows', ps'[m].id) < |rows'| {
      if m < |ps| { NewKeepsOld(rows, ps, r, m); }
    }
  }

  lemma NewOrder(rows: seq<Row>, ps: seq<Product>, r: Row)
    requires Covers(rows, ps) && Sourced(rows, ps) && FirstSeenOrder(rows, ps)
    requires forall j :: 0 <= j < |ps| ==> ps[j].id != r.productId
    ensures FirstSeenOrder(rows + [r], Extended(ps, r))
  {
    var rows', ps' := rows + [r], Extended(ps, r);
    NewProductFirstAtEnd(rows, ps, r);
    forall i, j | 0 <= i < j < |ps'|
      ensures FirstRow(rows', ps'[i].id) < FirstRow(rows', ps'[j].id)
    {
      NewKeepsOld(rows, ps, r, i);
      if j < |ps| { NewKeepsOld(rows, ps, r, j); }
    }
  }

  lemma NewHeaders(rows: seq<Row>, ps: seq<Product>, r: Row)
    requires Covers(rows, ps) && Sourced(rows, ps) && FirstRowHeaders(rows, ps)
    requires forall j :: 0 <= j < |ps| ==> ps[j].id != r.productId
    ensures Sourced(rows + [r], Extended(ps, r))
    ensures FirstRowHeaders(rows + [r], Extended(ps, r))
  {
    var rows', ps' := rows + [r], Extended(ps, r);
    NewSourced(rows, ps, r);
    NewProductFirstAtEnd(rows, ps, r);
    forall m | 0 <= m < |ps'|
      ensures ps'[m].(formats := []) == HeaderOf(rows'[FirstRow(rows', ps'[m].id)])
    {
      if m < |ps| {
        NewKeepsOld(rows, ps, r, m);
      } else {
        assert rows'[|rows|] == r;
      }
    }
  }

  lemma NewEntries(rows: seq<Row>, ps: seq<Product>, r: Row)
    requires Covers(rows, ps) && OwnEntries(rows, ps)
    requires forall j :: 0 <= j < |ps| ==> ps[j].id != r.productId
    ensures OwnEntries(rows + [r], Extended(ps, r))
  {
    var rows', ps' := rows + [r], Extended(ps, r);
    NewProductFirstAtEnd(rows, ps, r);
    forall m | 0 <= m < |ps'| ensures ps'[m].formats == EntriesFor(rows', ps'[m].id) {
      EntriesForSnoc(rows, r, ps'[m].id);
      if m < |ps| {
        assert ps'[m] == ps[m];
      }
    }
  }

  /** One `forEach` step keeps the grouping. */
  lemma AddRowPreserves(rows: seq<Row>, ps: seq<Product>, r: Row)
    requires Grouped(rows, ps)
    ensures Grouped(rows + [r], AddRow(ps, r))
  {
    AddRowShape(ps, r);
    match IndexOf(ps, r.productId)
    case Some(k) =>
      ExistingCovers(rows, ps, r, k);
      ExistingKeepsOrder(rows, ps, r, k);
      ExistingEntries(rows, ps, r, k);
    case None =>
      NewCovers(rows, ps, r);
      NewSourced(rows, ps, r);
      NewOrder(rows, ps, r);
      NewHeaders(rows, ps, r);
      NewEntries(rows, ps, r);
  }

  // ---------------------------------------------------------- the theorem

  /** The fold builds exactly the grouping: one summary per distinct product
      id, in first-seen order, with the first row's product fields and every
      row's entry, in row order, under its own product. */
  lemma {:induction false} AggregateGroups(rows: seq<Row>)
    ensures Grouped(rows, Aggregate(rows))
    decreases |rows|
  {
    if |rows| > 0 {
      var front, last := rows[..|rows| - 1], rows[|rows| - 1];
      assert front + [last] == rows;
      AggregateGroups(front);
      AddRowPreserves(front, Aggregate(front), last);
    }
  }

  /** No two summaries share a product id. */
  lemma AggregateDistinct(rows: seq<Row>)
    ensures forall i, j :: 0 <= i < j < |Aggregate(rows)| ==> Aggregate(rows)[i].id != Aggregate(rows)[j].id
  {
    AggregateGroups(rows);
  }
}

=== FILE: formats.dfy ===
/** The three physical formats and the client's id-to-name ternary
    (`FormatID === 1 ? "Vinyl" : FormatID === 2 ? "CD" : "Cassette"`),
    which the catalog grouping, the product details table and the order
    line lookup each repeat. */
module Formats {
  /** The closed set of formats the store carries, with their stable ids. */
  datatype Format = Vinyl | CD | Cassette {

    function Id(): (id: int)
      ensures 1 <= id <= 3
    {
      match this
      case Vinyl => 1
      case CD => 2
      case Cassette => 3
    }

    function Name(): (name: string) {
      match this
      case Vinyl => "Vinyl"
      case CD => "CD"
      case Cassette => "Cassette"
    }
  }

  /** The display name the client gives a format id. Ids 1 and 2 are
      recognised; every other id, valid or not, falls through to "Cassette". */
  function FormatName(id: int): (name: string)
    ensures name == "Vinyl" <==> id == 1
    ensures name == "CD" <==> id == 2
    ensures name == "Cassette" <==> id != 1 && id != 2
  {
    if id == 1 then "Vinyl" else if id == 2 then "CD" else "Cassette"
  }

  /** The ternary agrees with the closed enumeration on every real format:
      the id-to-name table and the name table of `Format` are the same. */
  lemma FormatNameOfId(f: Format)
    ensures FormatName(f.Id()) == f.Name()
  {
  }

  /** Distinct formats have distinct ids, so the id is a faithful key. */
  lemma FormatIdInjective(f: Format, g: Format)
    ensures f.Id() == g.Id() <==> f == g
  {
  }

  /** The name identifies only ids 1 and 2: every other id, valid or not,
      collapses onto the same name as format 3. */
  lemma FormatNameEqualIff(a: int, b: int)
    ensures FormatName(a) == FormatName(b) <==> a == b || (a != 1 && a != 2 && b != 1 && b != 2)
  {
  }
}

=== FILE: order_form.dfy ===
/** The order form (`setupCreateOrderForm`, `addOrderItem`,
    `removeOrderItem`): item rows are added and removed on screen, and the
    submit handler refuses an order with no items before posting it.

    As written, the handler tests and sends the global `orderItems`
    array, which the form resets to empty and nothing ever appends to; the
    item rows live only on screen. `Submit` models that code and
    `SubmitCollected` the evidently intended handler, which reads the item
    rows on screen. */
module OrderForm {
  import opened Wrappers
  import opened Text

  /** The text of one item row's inputs: product id, format, quantity and
      unit price. */
  datatype ItemRow = ItemRow(productIdText: string, formatText: string, quantityText: string, priceText: string)

  /** A freshly added row: empty fields except a quantity of "1". */
  const NewItemRow: ItemRow := ItemRow("", "", "1", "")

  /** The item rows on screen, and the global `orderItems` array. */
  datatype Form = Form(itemRows: seq<ItemRow>, orderItems: seq<ItemRow>)

  /** What the operator can do to the items before submitting. */
  datatype Event = AddItem | RemoveItem(index: nat) | EditItem(index: nat, row: ItemRow)

  /** Opening the form: no rows on screen and `orderItems = []`. */
  function Opened(): (form: Form) {
    Form([], [])
  }

  /** One event: rows are appended, removed or edited on screen only. */
  function Apply(form: Form, e: Event): (form': Form)
    ensures form'.orderItems == form.orderItems
  {
    match e
    case AddItem => form.(itemRows := form.itemRows + [NewItemRow])
    case RemoveItem(i) =>
      if i < |form.itemRows| then form.(itemRows := form.itemRows[..i] + form.itemRows[i + 1..]) else form
    case EditItem(i, row) =>
      if i < |form.itemRows| then form.(itemRows := form.itemRows[i := row]) else form
  }

  /** The form after a sequence of events, applied in order. */
  function Run(form: Form, events: seq<Event>): (form': Form)
    decreases |events|
  {
    if |events| == 0 then form else Run(Apply(form, events[0]), events[1..])
  }

  /** The order body: `customerId` is `parseInt` of its field (a `NaN` is
      posted as `null`, modelled as `None`) and the items. */
  datatype OrderRequest = OrderRequest(customerId: Option<int>, items: seq<ItemRow>)

  datatype OrderError = NoItems

  /** The submit handler as written. */
  function Submit(form: Form, customerIdText: string): (r: Result<OrderRequest, OrderError>)
    ensures r.Failure? <==> |form.orderItems| == 0
  {
    if |form.orderItems| == 0 then Failure(NoItems)
    else Success(OrderRequest(ParseInt(customerIdText), form.orderItems))
  }

  lemma {:induction false} RunKeepsOrderItems(form: Form, events: seq<Event>)
    ensures Run(form, events).orderItems == form.orderItems
    decreases |events|
  {
    if |events| > 0 {
      RunKeepsOrderItems(Apply(form, events[0]), events[1..]);
    }
  }

  /** As written, no sequence of edits makes an order submittable: every
      submission is refused with the "no items" message. */
  lemma SubmitAlwaysRefused(events: seq<Event>, customerIdText: string)
    ensures Submit(Run(Opened(), events), customerIdText) == Failure(NoItems)
  {
    RunKeepsOrderItems(Opened(), events);
  }

  /** A concrete case: one item row filled in on screen, still refused. */
  lemma OneFilledRowRefused()
    ensures var form := Run(Opened(), [AddItem, EditItem(0, ItemRow("7", "1", "2", "19.99"))]);
      |form.itemRows| == 1 && Submit(form, "3") == Failure(NoItems)
  {
    SubmitAlwaysRefused([AddItem, EditItem(0, ItemRow("7", "1", "2", "19.99"))], "3");
  }

  /** The evidently intended handler: collect the item rows on screen. An
      order is refused exactly when no item row is on screen; otherwise it
      carries every row, in screen order. */
  function SubmitCollected(form: Form, customerIdText: string): (r: Result<OrderRequest, OrderError>)
    ensures r.Failure? <==> |form.itemRows| == 0
    ensures r.Failure? ==> r.error == NoItems
    ensures r.Success? ==> r.value.items == form.itemRows
  {
    if |form.itemRows| == 0 then Failure(NoItems)
    else Success(OrderRequest(ParseInt(customerIdText), form.itemRows))
  }

  /** The general form of `OneFilledRowRefused`, for the intended handler:
      whatever is on screen, adding a row and filling it in makes the order
      submittable, and the filled row is its last item. The handler as
      written refuses the same form. */
  lemma FilledRowIsSent(form: Form, row: ItemRow, customerIdText: string)
    ensures var form' := Run(form, [AddItem, EditItem(|form.itemRows|, row)]);
      && form'.itemRows == form.itemRows + [row]
      && SubmitCollected(form', customerIdText).Success?
      && SubmitCollected(form', customerIdText).value.items[|form.itemRows|] == row
      && (|form.orderItems| == 0 ==> Submit(form', customerIdText) == Failure(NoItems))
  {
    var edit := EditItem(|form.itemRows|, row);
    var added := Apply(form, AddItem);
    var edited := Apply(added, edit);
    assert [AddItem, edit][1..] == [edit] && [edit][1..] == [];
    assert Run(form, [AddItem, edit]) == Run(added, [edit]) == Run(edited, []) == edited;
    assert edited.itemRows == (form.itemRows + [NewItemRow])[|form.itemRows| := row] == form.itemRows + [row];
  }

  /** `n` clicks on "add item". */
  function AddClicks(n: nat): (events: seq<Event>) {
    seq(n, _ => AddItem)
  }

  /** Adding `n` item rows appends `n` fresh rows, and the intended handler
      then sends an order carrying them. */
  lemma {:induction false} AddedRowsAreSent(form: Form, n: nat, customerIdText: string)
    ensures Run(form, AddClicks(n)).itemRows == form.itemRows + seq(n, _ => NewItemRow)
    ensures n > 0 ==> SubmitCollected(Run(form, AddClicks(n)), customerIdText).Success?
    decreases n
  {
    if n > 0 {
      assert AddClicks(n)[0] == AddItem && AddClicks(n)[1..] == AddClicks(n - 1);
      AddedRowsAreSent(Apply(form, AddItem), n - 1, customerIdText);
      assert form.itemRows + [NewItemRow] + seq(n - 1, _ => NewItemRow) == form.itemRows + seq(n, _ => NewItemRow);
    } else {
      assert form.itemRows + seq(n, _ => NewItemRow) == form.itemRows;
    }
  }
}

=== FILE: query.dfy ===
/** The catalog filter drop-down: `loadCatalog` turns its value into the
    inventory request URL. */
module CatalogQuery {
  import opened Text
  import opened Formats

  const ApiUrl: string := "http://localhost:3000/api"
  const InventoryUrl: string := ApiUrl + "/inventory"

  /** The drop-down values that select a narrower listing. */
  const RecognizedFilters: set<string> := {"vinyl", "cd", "cassette", "lowstock"}

  /** The query string a filter value appends to the inventory URL. */
  function FilterSuffix(filter: string): (suffix: string) {
    if filter == "vinyl" then "?formatId=1"
    else if filter == "cd" then "?formatId=2"
    else if filter == "cassette" then "?formatId=3"
    else if filter == "lowstock" then "?lowstock=true"
    else ""
  }

  /** The URL `loadCatalog` fetches for a filter value. */
  function CatalogUrl(filter: string): (url: string)
    ensures |url| >= |InventoryUrl| && url[..|InventoryUrl|] == InventoryUrl
  {
    InventoryUrl + FilterSuffix(filter)
  }

  /** The listing a request URL asks for. */
  datatype Listing = Everything | OneFormat(format: Format) | LowStockOnly

  /** The query string of a listing: a format is asked for by its numeric id. */
  function QueryOf(l: Listing): (filter: string) {
    match l
    case Everything => ""
    case OneFormat(f) => "?formatId=" + IntToString(f.Id())
    case LowStockOnly => "?lowstock=true"
  }

  /** Unrecognised values (including the empty "all products" value) leave
      the base URL unchanged; each recognised one appends one suffix. */
  lemma CatalogUrlShape(filter: string)
    ensures CatalogUrl(filter) == InventoryUrl <==> filter !in RecognizedFilters
    ensures filter == "lowstock" ==> CatalogUrl(filter) == InventoryUrl + QueryOf(LowStockOnly)
  {
  }

  /** The filter value naming a format is that format's display name in
      lower case (also the card badge's CSS class), and it selects exactly
      that format's id. */
  lemma FormatFilterSelectsFormat(f: Format)
    ensures Lower(FormatName(f.Id())) in RecognizedFilters
    ensures CatalogUrl(Lower(FormatName(f.Id()))) == InventoryUrl + QueryOf(OneFormat(f))
  {
    match f
    case Vinyl => assert Lower("Vinyl") == "vinyl";
    case CD => assert Lower("CD") == "cd";
    case Cassette => assert Lower("Cassette") == "cassette";
  }

  /** Different recognised filter values produce different requests. */
  lemma CatalogUrlInjective(a: string, b: string)
    requires a in RecognizedFilters && b in RecognizedFilters
    requires CatalogUrl(a) == CatalogUrl(b)
    ensures a == b
  {
    var n := |InventoryUrl|;
    assert CatalogUrl(a)[n..] == FilterSuffix(a);
    assert CatalogUrl(b)[n..] == FilterSuffix(b);
  }
}

=== FILE: restock.dfy ===
/** The restock form (`loadProductForInventory`, `setupUpdateInventoryForm`):
    the selected product's rows pre-fill the form, choosing a format shows
    its current quantity, and the submitted fields become the update body. */
module Restock {
  import opened Wrappers
  import opened Text
  import opened Catalog

  /** The product fields the form shows: id and "Title by Artist". */
  datatype Heading = Heading(productId: int, titleLine: string)

  /** What the current-quantity field shows. */
  datatype Shown = NotAvailable | Quantity(q: int)

  /** The pre-filled current and new quantity fields. */
  datatype Prefill = Prefill(current: Shown, newQuantity: int)

  /** The heading, taken from the first row; nothing is filled (and no
      format handler is attached) when the product has no rows. */
  function HeadingOf(rows: seq<Row>): (h: Option<Heading>)
    ensures h.None? <==> |rows| == 0
    ensures h.Some? ==> h.value.productId == rows[0].productId
  {
    if |rows| == 0 then None
    else Some(Heading(rows[0].productId, rows[0].title + " by " + rows[0].artist))
  }

  /** `rows.find(d => d.FormatID === id)`. */
  function FindFormat(rows: seq<Row>, id: int): (r: Option<nat>)
    ensures r.Some? ==> r.value < |rows| && rows[r.value].formatId == id
    ensures r.Some? ==> forall j :: 0 <= j < r.value ==> rows[j].formatId != id
    ensures r.None? <==> forall j :: 0 <= j < |rows| ==> rows[j].formatId != id
  {
    if |rows| == 0 then None
    else if rows[0].formatId == id then Some(0)
    else match FindFormat(rows[1..], id)
      case None => None
      case Some(k) => Some(k + 1)
  }

  /** The format `<select>`'s change handler: the select's text is read with
      `parseInt`; a `NaN` id matches no row. */
  function PrefillFor(rows: seq<Row>, selectValue: string): (p: Prefill)
    ensures p.current.NotAvailable? ==> p.newQuantity == 0
    ensures p.current.Quantity? ==> p.newQuantity == p.current.q
  {
    match ParseInt(selectValue)
    case None => Prefill(NotAvailable, 0)
    case Some(id) =>
      match FindFormat(rows, id)
      case None => Prefill(NotAvailable, 0)
      case Some(k) => Prefill(Quantity(rows[k].quantity), rows[k].quantity)
  }

  /** Selecting a stocked format shows the quantity of its first row and
      proposes it unchanged; selecting an unstocked one shows "N/A" and
      proposes 0. */
  lemma PrefillShowsStock(rows: seq<Row>, id: int)
    ensures forall j ::
      (0 <= j < |rows| && rows[j].formatId == id && forall j' :: 0 <= j' < j ==> rows[j'].formatId != id) ==>
      PrefillFor(rows, IntToString(id)) == Prefill(Quantity(rows[j].quantity), rows[j].quantity)
    ensures (forall j :: 0 <= j < |rows| ==> rows[j].formatId != id) ==>
      PrefillFor(rows, IntToString(id)) == Prefill(NotAvailable, 0)
  {
    ParseIntRoundTrip(id);
  }

  /** The restock request body. JSON has no `NaN`: an unparsable field is
      sent as `null`, modelled as `None`. */
  datatype InventoryUpdate = InventoryUpdate(productId: Option<int>, formatId: Option<int>, quantity: Option<int>)

  function UpdateOf(productIdText: string, formatText: string, newQuantityText: string): (u: InventoryUpdate)
    ensures (forall i :: 0 <= i < |productIdText| ==> IsJsSpace(productIdText[i])) ==> u.productId.None?
    ensures (forall i :: 0 <= i < |formatText| ==> IsJsSpace(formatText[i])) ==> u.formatId.None?
    ensures (forall i :: 0 <= i < |newQuantityText| ==> IsJsSpace(newQuantityText[i])) ==> u.quantity.None?
  {
    InventoryUpdate(ParseInt(productIdText), ParseInt(formatText), ParseInt(newQuantityText))
  }

  /** Fields holding decimal numerals are sent as the numbers they spell. */
  lemma UpdateOfNumerals(productId: int, formatId: int, quantity: int)
    ensures UpdateOf(IntToString(productId), IntToString(formatId), IntToString(quantity))
      == InventoryUpdate(Some(productId), Some(formatId), Some(quantity))
  {
    ParseIntRoundTrip(productId);
    ParseIntRoundTrip(formatId);
    ParseIntRoundTrip(quantity);
  }

  /** Submitting the pre-filled form unchanged sends back the product id,
      the chosen format and the quantity that was shown: a restock with no
      edit rewrites the stored value. */
  lemma UnchangedSubmitKeepsQuantity(rows: seq<Row>, id: int)
    requires |rows| > 0
    ensures var p := PrefillFor(rows, IntToString(id));
      UpdateOf(IntToString(HeadingOf(rows).value.productId), IntToString(id), IntToString(p.newQuantity))
        == InventoryUpdate(Some(rows[0].productId), Some(id), Some(p.newQuantity))
  {
    ParseIntRoundTrip(rows[0].productId);
    ParseIntRoundTrip(id);
    ParseIntRoundTrip(PrefillFor(rows, IntToString(id)).newQuantity);
  }
}

=== FILE: search.dfy ===
/** The catalog search box (`setupCatalogSearch`): a case-insensitive
    substring filter over title, artist and genre, applied to the last
    loaded catalog. */
module Search {
  import opened Text
  import opened Catalog

  /** The filter's test, for a term that is already lowercased. */
  predicate Matches(p: Product, term: string)
    ensures term == "" ==> Matches(p, term)
  {
    Contains(Lower(p.title), term) || Contains(Lower(p.artist), term) || Contains(Lower(p.genre), term)
  }

  /** `products.filter(p => Matches(p, term))`, scanning left to right. */
  function FilterMatching(ps: seq<Product>, term: string): (r: seq<Product>)
    ensures |r| <= |ps|
    ensures forall k :: 0 <= k < |r| ==> Matches(r[k], term)
  {
    if |ps| == 0 then []
    else (if Matches(ps[0], term) then [ps[0]] else []) + FilterMatching(ps[1..], term)
  }

  /** The products displayed after `input` is typed into the search box. */
  function Refine(all: seq<Product>, input: string): (r: seq<Product>)
    ensures input == "" ==> r == all
  {
    var term := Lower(input);
    if term == "" then all else FilterMatching(all, term)
  }

  /** `idx` lists, in increasing order, the positions of `all` that `r` keeps. */
  ghost predicate KeepsPositions(all: seq<Product>, r: seq<Product>, idx: seq<nat>) {
    && |idx| == |r|
    && (forall k :: 0 <= k < |idx| ==> idx[k] < |all| && all[idx[k]] == r[k])
    && (forall k, l :: 0 <= k < l < |idx| ==> idx[k] < idx[l])
  }

  /** Positions kept from the tail, shifted past an optionally kept head. */
  lemma ConsPositions(ps: seq<Product>, keep: bool, r: seq<Product>, rest: seq<nat>) returns (idx: seq<nat>)
    requires |ps| > 0
    requires KeepsPositions(ps[1..], r, rest)
    ensures KeepsPositions(ps, (if keep then [ps[0]] else []) + r, idx)
    ensures 0 in idx <==> keep
    ensures forall i :: 0 < i < |ps| ==> (i in idx <==> i - 1 in rest)
  {
    var shifted := seq(|rest|, k requires 0 <= k < |rest| => rest[k] + 1);
    idx := (if keep then [0] else []) + shifted;
    forall i | 0 < i < |ps| ensures i in idx <==> i - 1 in rest {
      if i - 1 in rest {
        var k :| 0 <= k < |rest| && rest[k] == i - 1;
        assert shifted[k] == i;
      }
    }
  }

  lemma {:induction false} FilterPositions(ps: seq<Product>, term: string) returns (idx: seq<nat>)
    ensures KeepsPositions(ps, FilterMatching(ps, term), idx)
    ensures forall i :: 0 <= i < |ps| ==> (Matches(ps[i], term) <==> i in idx)
    decreases |ps|
  {
    if |ps| == 0 {
      idx := [];
    } else {
      var rest := FilterPositions(ps[1..], term);
      idx := ConsPositions(ps, Matches(ps[0], term), FilterMatching(ps[1..], term), rest);
      forall i | 0 < i < |ps| ensures Matches(ps[i], term) <==> i in idx {
        assert ps[1..][i - 1] == ps[i];
      }
    }
  }

  /** For a non-empty input the displayed list is the order-preserving
      subsequence of the catalog made of exactly the products whose
      lowercased title, artist or genre contains the lowercased input. */
  lemma RefineSelects(all: seq<Product>, input: string) returns (idx: seq<nat>)
    requires input != ""
    ensures KeepsPositions(all, Refine(all, input), idx)
    ensures forall i :: 0 <= i < |all| ==> (Matches(all[i], Lower(input)) <==> i in idx)
    ensures forall k :: 0 <= k < |Refine(all, input)| ==> Matches(Refine(all, input)[k], Lower(input))
  {
    LowerEmpty(input);
    idx := FilterPositions(all, Lower(input));
  }

  lemma {:induction false} FilterIdempotent(ps: seq<Product>, term: string)
    ensures FilterMatching(FilterMatching(ps, term), term) == FilterMatching(ps, term)
    decreases |ps|
  {
    if |ps| > 0 {
      FilterIdempotent(ps[1..], term);
      var f := FilterMatching(ps, term);
      if Matches(ps[0], term) {
        assert f[0] == ps[0] && f[1..] == FilterMatching(ps[1..], term);
      } else {
        assert f == FilterMatching(ps[1..], term);
      }
    }
  }

  /** Searching the displayed results again for the same input changes nothing. */
  lemma RefineIdempotent(all: seq<Product>, input: string)
    ensures Refine(Refine(all, input), input) == Refine(all, input)
  {
    if Lower(input) != "" {
      FilterIdempotent(all, Lower(input));
    }
  }

  /** A product matching a term matches every substring of that term. */
  lemma MatchesWeaken(p: Product, longer: string, shorter: string)
    requires Contains(longer, shorter)
    requires Matches(p, longer)
    ensures Matches(p, shorter)
  {
    if Contains(Lower(p.title), longer) {
      ContainsTransitive(Lower(p.title), longer, shorter);
    } else if Contains(Lower(p.artist), longer) {
      ContainsTransitive(Lower(p.artist), longer, shorter);
    } else {
      ContainsTransitive(Lower(p.genre), longer, shorter);
    }
  }

  lemma {:induction false} FilterNarrows(ps: seq<Product>, longer: string, shorter: string)
    requires Contains(longer, shorter)
    ensures FilterMatching(ps, longer) == FilterMatching(FilterMatching(ps, shorter), longer)
    decreases |ps|
  {
    if |ps| > 0 {
      FilterNarrows(ps[1..], longer, shorter);
      var f := FilterMatching(ps, shorter);
      if Matches(ps[0], shorter) {
        assert f[0] == ps[0] && f[1..] == FilterMatching(ps[1..], shorter);
      } else {
        if Matches(ps[0], longer) {
          MatchesWeaken(ps[0], longer, shorter);
        }
        assert f == FilterMatching(ps[1..], shorter);
      }
    }
  }

  /** Typing more characters only narrows the list: searching for a term
      that contains the previous one gives the same list whether it starts
      from the whole catalog or from the previous results. */
  lemma RefineNarrows(all: seq<Product>, previous: string, current: string)
    requires Contains(Lower(current), Lower(previous))
    ensures Refine(all, current) == Refine(Refine(all, previous), current)
  {
    if Lower(current) != "" && Lower(previous) != "" {
      FilterNarrows(all, Lower(current), Lower(previous));
    }
  }

  /** The search ignores ASCII case: inputs that agree up to case show the
      same products. */
  lemma RefineCaseInsensitive(all: seq<Product>, a: string, b: string)
    requires |a| == |b| && forall i :: 0 <= i < |a| ==> SameUpToCase(a[i], b[i])
    ensures Refine(all, a) == Refine(all, b)
  {
    LowerEqualIff(a, b);
  }
}

=== FILE: stock.dfy ===
/** Stock figures derived from the catalog: the per-card total and its
    low-stock class (`displayProducts`), and the product details view,
    which sums the rows of one product directly (`loadProductDetails`). */
module Stock {
  import opened Wrappers
  import opened Formats
  import opened Catalog

  /** A card's total is shown as low stock strictly below this many units. */
  const LowStockThreshold: int := 10

  /** `formats.reduce((sum, f) => sum + f.quantity, 0)`. */
  function TotalStock(fs: seq<FormatEntry>): (total: int)
    ensures (forall i :: 0 <= i < |fs| ==> fs[i].quantity >= 0) ==> total >= 0
  {
    if |fs| == 0 then 0 else TotalStock(fs[..|fs| - 1]) + fs[|fs| - 1].quantity
  }

  /** `data.reduce((sum, d) => sum + d.Quantity, 0)` over raw rows. */
  function RowsQuantity(rows: seq<Row>): (total: int)
    ensures (forall i :: 0 <= i < |rows| ==> rows[i].quantity >= 0) ==> total >= 0
  {
    if |rows| == 0 then 0 else RowsQuantity(rows[..|rows| - 1]) + rows[|rows| - 1].quantity
  }

  /** The rows of product `id`, in row order. */
  function RowsOf(rows: seq<Row>, id: int): (rs: seq<Row>)
    ensures |rs| <= |rows|
    ensures forall k :: 0 <= k < |rs| ==> rs[k].productId == id
  {
    if |rows| == 0 then []
    else RowsOf(rows[..|rows| - 1], id)
         + (if rows[|rows| - 1].productId == id then [rows[|rows| - 1]] else [])
  }

  /** The rows kept for product `id` are exactly the input rows carrying that
      id: none is dropped and none is invented. */
  lemma {:induction false} RowsOfExactly(rows: seq<Row>, id: int)
    ensures forall r :: r in RowsOf(rows, id) <==> r in rows && r.productId == id
    decreases |rows|
  {
    if |rows| > 0 {
      var front := rows[..|rows| - 1];
      RowsOfExactly(front, id);
      assert rows == front + [rows[|rows| - 1]];
    }
  }

  /** The CSS class of a card's total: "stock-low" below the threshold. */
  function StockClass(total: int): (cls: string)
    ensures cls == "stock-low" <==> total < LowStockThreshold
    ensures cls == "stock-ok" <==> total >= LowStockThreshold
  {
    if total < LowStockThreshold then "stock-low" else "stock-ok"
  }

  /** The stock line of a product card: its total and that total's class. */
  datatype StockInfo = StockInfo(total: int, cls: string)

  function CardStock(p: Product): (info: StockInfo)
    ensures info.total == TotalStock(p.formats)
    ensures info.cls == "stock-low" <==> info.total < LowStockThreshold
    ensures info.cls == "stock-ok" <==> info.total >= LowStockThreshold
  {
    var total := TotalStock(p.formats);
    StockInfo(total, StockClass(total))
  }

  // ------------------------------------------------------------ sum facts

  lemma {:induction false} TotalStockAppend(a: seq<FormatEntry>, b: seq<FormatEntry>)
    ensures TotalStock(a + b) == TotalStock(a) + TotalStock(b)
    decreases |b|
  {
    if |b| > 0 {
      var b' := b[..|b| - 1];
      assert (a + b)[..|a + b| - 1] == a + b';
      assert (a + b)[|a + b| - 1] == b[|b| - 1];
      TotalStockAppend(a, b');
    } else {
      assert a + b == a;
    }
  }

  /** With no negative quantity, the total is at least every single
      quantity: no format, zero-stock ones included, is dropped from it. */
  lemma {:induction false} TotalStockBounds(fs: seq<FormatEntry>)
    requires forall i :: 0 <= i < |fs| ==> fs[i].quantity >= 0
    ensures TotalStock(fs) >= 0
    ensures forall i :: 0 <= i < |fs| ==> fs[i].quantity <= TotalStock(fs)
    decreases |fs|
  {
    if |fs| > 0 {
      TotalStockBounds(fs[..|fs| - 1]);
      assert forall i :: 0 <= i < |fs| - 1 ==> fs[..|fs| - 1][i] == fs[i];
    }
  }

  /** A product's format entries add up to the quantities of its own rows. */
  lemma {:induction false} EntriesStock(rows: seq<Row>, id: int)
    ensures TotalStock(EntriesFor(rows, id)) == RowsQuantity(RowsOf(rows, id))
    decreases |rows|
  {
    if |rows| > 0 {
      var front, last := rows[..|rows| - 1], rows[|rows| - 1];
      EntriesStock(front, id);
      TotalStockAppend(EntriesFor(front, id), if last.productId == id then [EntryOf(last)] else []);
      if last.productId == id {
        var rs := RowsOf(front, id) + [last];
        assert rs[..|rs| - 1] == RowsOf(front, id);
        assert [EntryOf(last)][..0] == [];
      } else {
        assert EntriesFor(front, id) + [] == EntriesFor(front, id);
        assert RowsOf(front, id) + [] == RowsOf(front, id);
      }
    }
  }

  // --------------------------------------------------------- card stock

  /** A card's total is the sum of its product's row quantities, and the card
      is marked low exactly when that sum is below 10 (9 is low, 10 is not). */
  lemma CardStockOfAggregate(rows: seq<Row>, k: nat)
    requires k < |Aggregate(rows)|
    ensures CardStock(Aggregate(rows)[k]).total == RowsQuantity(RowsOf(rows, Aggregate(rows)[k].id))
    ensures CardStock(Aggregate(rows)[k]).cls == "stock-low"
        <==> RowsQuantity(RowsOf(rows, Aggregate(rows)[k].id)) < LowStockThreshold
    ensures CardStock(Aggregate(rows)[k]).cls == "stock-ok"
        <==> RowsQuantity(RowsOf(rows, Aggregate(rows)[k].id)) >= LowStockThreshold
  {
    AggregateGroups(rows);
    EntriesStock(rows, Aggregate(rows)[k].id);
  }

  // ------------------------------------------------- whole-catalog sums

  function SumOver(ps: seq<Product>, f: Product -> int): (sum: int) {
    if |ps| == 0 then 0 else SumOver(ps[..|ps| - 1], f) + f(ps[|ps| - 1])
  }

  lemma {:induction false} SumOverUpdate(ps: seq<Product>, f: Product -> int, k: nat, p: Product)
    requires k < |ps|
    ensures SumOver(ps[k := p], f) == SumOver(ps, f) - f(ps[k]) + f(p)
    decreases |ps|
  {
    var n := |ps| - 1;
    if k < n {
      assert ps[k := p][..n] == ps[..n][k := p];
      SumOverUpdate(ps[..n], f, k, p);
    } else {
      assert ps[k := p][..n] == ps[..n];
    }
  }

  lemma SumOverSnoc(ps: seq<Product>, f: Product -> int, p: Product)
    ensures SumOver(ps + [p], f) == SumOver(ps, f) + f(p)
  {
    assert (ps + [p])[..|ps|] == ps;
  }

  function EntryCount(p: Product): (n: int) {
    |p.formats|
  }

  function ProductStock(p: Product): (n: int) {
    TotalStock(p.formats)
  }

  /** One row adds exactly one format entry to the catalog and its quantity
      to the catalog's stock. */
  lemma AddRowSums(ps: seq<Product>, r: Row)
    ensures SumOver(AddRow(ps, r), EntryCount) == SumOver(ps, EntryCount) + 1
    ensures SumOver(AddRow(ps, r), ProductStock) == SumOver(ps, ProductStock) + r.quantity
  {
    AddRowShape(ps, r);
    match IndexOf(ps, r.productId)
    case Some(k) =>
      var p := ps[k].(formats := ps[k].formats + [EntryOf(r)]);
      SumOverUpdate(ps, EntryCount, k, p);
      SumOverUpdate(ps, ProductStock, k, p);
      TotalStockAppend(ps[k].formats, [EntryOf(r)]);
    case None =>
      var p := HeaderOf(r).(formats := [EntryOf(r)]);
      SumOverSnoc(ps, EntryCount, p);
      SumOverSnoc(ps, ProductStock, p);
      assert TotalStock([EntryOf(r)]) == r.quantity;
  }

  /** Grouping loses and duplicates nothing: the catalog holds one format
      entry per row, and the card totals add up to the sum of all rows. */
  lemma {:induction false} AggregateConserves(rows: seq<Row>)
    ensures SumOver(Aggregate(rows), EntryCount) == |rows|
    ensures SumOver(Aggregate(rows), ProductStock) == RowsQuantity(rows)
    decreases |rows|
  {
    if |rows| > 0 {
      var front := rows[..|rows| - 1];
      AggregateConserves(front);
      AddRowSums(Aggregate(front), rows[|rows| - 1]);
    }
  }

  // ------------------------------------------------------ details view

  /** One row of the details table: format name, quantity and SKU. */
  datatype DetailLine = DetailLine(formatName: string, quantity: int, sku: string)

  /** The product details view of one product's rows. */
  datatype Details = Details(
    productId: int,
    title: string,
    artist: string,
    genre: string,
    price: real,
    totalStock: int,
    lines: seq<DetailLine>)

  function LineOf(r: Row): (line: DetailLine) {
    DetailLine(FormatName(r.formatId), r.quantity, r.sku)
  }

  /** The details of the rows returned for one product id. Nothing is shown
      when there are no rows; otherwise the header comes from the first row,
      the total sums every row and the table has one line per row. */
  function DetailsOf(rows: seq<Row>): (d: Option<Details>)
    ensures d.None? <==> |rows| == 0
    ensures d.Some? ==> |d.value.lines| == |rows|
  {
    if |rows| == 0 then None
    else
      var item := rows[0];
      Some(Details(item.productId, item.title, item.artist, item.genre, item.price,
                   RowsQuantity(rows), seq(|rows|, i requires 0 <= i < |rows| => LineOf(rows[i]))))
  }

  lemma {:induction false} EntriesForAll(rows: seq<Row>, id: int)
    requires forall i :: 0 <= i < |rows| ==> rows[i].productId == id
    ensures |EntriesFor(rows, id)| == |rows|
    ensures forall i :: 0 <= i < |rows| ==> EntriesFor(rows, id)[i] == EntryOf(rows[i])
    ensures RowsOf(rows, id) == rows
    decreases |rows|
  {
    if |rows| > 0 {
      var front := rows[..|rows| - 1];
      EntriesForAll(front, id);
      assert front + [rows[|rows| - 1]] == rows;
    }
  }

  /** For the rows of a single product the two views agree: the catalog has
      exactly one card for it, whose header is the details header, whose
      total is the details total and whose format badges are the details
      table, line for line. */
  lemma DetailsMatchCard(rows: seq<Row>, id: int)
    requires |rows| > 0
    requires forall i :: 0 <= i < |rows| ==> rows[i].productId == id
    ensures |Aggregate(rows)| == 1
    ensures var p, d := Aggregate(rows)[0], DetailsOf(rows).value;
      && p.id == d.productId == id
      && p.title == d.title && p.artist == d.artist && p.genre == d.genre && p.price == d.price
      && TotalStock(p.formats) == d.totalStock
      && |p.formats| == |d.lines|
      && forall i :: 0 <= i < |d.lines| ==>
           d.lines[i] == DetailLine(p.formats[i].name, p.formats[i].quantity, p.formats[i].sku)
  {
    var ps := Aggregate(rows);
    AggregateGroups(rows);
    assert IndexOf(ps, rows[0].productId).Some?;
    FirstRowUnique(rows, id, 0);
    forall k | 0 <= k < |ps| ensures ps[k].id == id && FirstRow(rows, ps[k].id) == 0 {
      assert rows[FirstRow(rows, ps[k].id)].productId == id;
    }
    assert |ps| >= 2 ==> FirstRow(rows, ps[0].id) < FirstRow(rows, ps[1].id);
    assert |ps| == 1;
    EntriesForAll(rows, id);
    EntriesStock(rows, id);
  }
}

=== FILE: text.dfy ===
/** String primitives the client relies on: `String.prototype.toLowerCase`,
    `String.prototype.includes`, the global `parseInt` with no radix, and
    the decimal rendering of an integer (what a number becomes when it is
    written into a form field). */
module Text {
  import opened Wrappers

  // ---------------------------------------------------------------- lowercase

  predicate IsUpper(c: char) {
    'A' <= c <= 'Z'
  }

  /** ASCII lowercasing of one character. */
  function LowerChar(c: char): (d: char)
    ensures IsUpper(c) ==> 'a' <= d <= 'z' && d as int == c as int + 32
    ensures !IsUpper(c) ==> d == c
  {
    if IsUpper(c) then (c as int + 32) as char else c
  }

  /** `a` and `b` are the same character up to ASCII case. */
  predicate SameUpToCase(a: char, b: char) {
    a == b || (IsUpper(a) && b as int == a as int + 32) || (IsUpper(b) && a as int == b as int + 32)
  }

  /** `s.toLowerCase()`, restricted to the ASCII letters. */
  function Lower(s: string): (r: string)
    ensures |r| == |s|
    ensures forall i :: 0 <= i < |r| ==> !IsUpper(r[i])
    ensures forall i :: 0 <= i < |r| && !IsUpper(s[i]) ==> r[i] == s[i]
    ensures forall i :: 0 <= i < |r| && IsUpper(s[i]) ==> r[i] as int == s[i] as int + 32
  {
    seq(|s|, i requires 0 <= i < |s| => LowerChar(s[i]))
  }

  /** Lowercasing twice is lowercasing once. */
  lemma LowerIdempotent(s: string)
    ensures Lower(Lower(s)) == Lower(s)
  {
  }

  lemma LowerCharEqual(a: char, b: char)
    ensures LowerChar(a) == LowerChar(b) <==> SameUpToCase(a, b)
  {
  }

  /** Two strings lowercase to the same string exactly when they agree
      character by character up to ASCII case: what makes a search
      case-insensitive. */
  lemma LowerEqualIff(s: string, t: string)
    ensures Lower(s) == Lower(t) <==> |s| == |t| && forall i :: 0 <= i < |s| ==> SameUpToCase(s[i], t[i])
  {
    if |s| == |t| {
      forall i | 0 <= i < |s|
        ensures Lower(s)[i] == Lower(t)[i] <==> SameUpToCase(s[i], t[i])
      {
        LowerCharEqual(s[i], t[i]);
      }
      if forall i :: 0 <= i < |s| ==> SameUpToCase(s[i], t[i]) {
        assert Lower(s) == Lower(t);
      }
    }
  }

  /** Lowercasing only changes letters, never the length: the client's
      `searchTerm === ""` test after `toLowerCase` is a test of the raw input. */
  lemma LowerEmpty(s: string)
    ensures Lower(s) == "" <==> s == ""
  {
  }

  // ----------------------------------------------------------------- includes

  /** `t` occurs in `s` starting at index `i`. */
  ghost predicate OccursAt(s: string, t: string, i: int) {
    0 <= i && i + |t| <= |s| && s[i..i + |t|] == t
  }

  /** `s.includes(t)`: scan the start positions of `s` from the left. */
  predicate Contains(s: string, t: string)
    ensures Contains(s, t) ==> |t| <= |s|
    ensures t == "" ==> Contains(s, t)
    decreases |s|
  {
    (|t| <= |s| && s[..|t|] == t) || (|s| > 0 && Contains(s[1..], t))
  }

  /** The scanning definition agrees with the positional one: `s.includes(t)`
      holds exactly when some start index of `s` is followed by `t`. */
  lemma {:induction false} ContainsIff(s: string, t: string)
    ensures Contains(s, t) <==> exists i :: OccursAt(s, t, i)
    decreases |s|
  {
    if exists i :: OccursAt(s, t, i) {
      var i :| OccursAt(s, t, i);
      if i == 0 {
        assert s[..|t|] == t;
      } else {
        assert s[1..][i - 1..i - 1 + |t|] == s[i..i + |t|];
        assert OccursAt(s[1..], t, i - 1);
        ContainsIff(s[1..], t);
      }
    }
    if Contains(s, t) {
      if |t| <= |s| && s[..|t|] == t {
        assert OccursAt(s, t, 0);
      } else {
        ContainsIff(s[1..], t);
        var i :| OccursAt(s[1..], t, i);
        assert s[i + 1..i + 1 + |t|] == s[1..][i..i + |t|];
        assert OccursAt(s, t, i + 1);
      }
    }
  }

  /** Every string contains the empty string (`"abc".includes("") === true`). */
  lemma ContainsEmpty(s: string)
    ensures Contains(s, "")
  {
  }

  /** Containment is transitive: a string containing `u` contains every
      substring of `u`. */
  lemma ContainsTransitive(s: string, u: string, t: string)
    requires Contains(s, u) && Contains(u, t)
    ensures Contains(s, t)
  {
    ContainsIff(s, u);
    ContainsIff(u, t);
    var i :| OccursAt(s, u, i);
    var j :| OccursAt(u, t, j);
    forall k | 0 <= k < |t|
      ensures s[i + j + k] == t[k]
    {
      assert s[i + j + k] == s[i..i + |u|][j + k] == u[j + k];
      assert u[j + k] == u[j..j + |t|][k];
    }
    assert s[i + j..i + j + |t|] == t;
    assert OccursAt(s, t, i + j);
    ContainsIff(s, t);
  }

  // ----------------------------------------------------------------- parseInt

  /** ECMAScript StrWhiteSpaceChar: WhiteSpace (TAB, VT, FF, ZWNBSP and every
      Unicode "Space_Separator") and LineTerminator (LF, CR, LS, PS). */
  predicate IsJsSpace(c: char) {
    var k := c as int;
    k == 0x09 || k == 0x0A || k == 0x0B || k == 0x0C || k == 0x0D || k == 0x20
    || k == 0xA0 || k == 0x1680 || (0x2000 <= k <= 0x200A) || k == 0x2028
    || k == 0x2029 || k == 0x202F || k == 0x205F || k == 0x3000 || k == 0xFEFF
  }

  /** The value of `c` as a digit (0-9, then a-z / A-Z as 10-35), or 36 when
      `c` is no digit in any radix. */
  function DigitValue(c: char): (v: nat)
    ensures v <= 36
  {
    if '0' <= c <= '9' then c as int - '0' as int
    else if 'a' <= c <= 'z' then c as int - 'a' as int + 10
    else if 'A' <= c <= 'Z' then c as int - 'A' as int + 10
    else 36
  }

  predicate IsDigitIn(c: char, radix: nat) {
    DigitValue(c) < radix
  }

  /** Length of the longest prefix of `s` made of digits of `radix`. */
  function DigitRun(s: string, radix: nat): (n: nat)
    ensures n <= |s|
    ensures forall i :: 0 <= i < n ==> IsDigitIn(s[i], radix)
    ensures n < |s| ==> !IsDigitIn(s[n], radix)
  {
    if |s| > 0 && IsDigitIn(s[0], radix) then 1 + DigitRun(s[1..], radix) else 0
  }

  /** The mathematical value of a digit string read most significant first. */
  function DigitsValue(ds: string, radix: nat): (v: nat) {
    if |ds| == 0 then 0
    else DigitsValue(ds[..|ds| - 1], radix) * radix
         + (if DigitValue(ds[|ds| - 1]) < radix then DigitValue(ds[|ds| - 1]) else 0)
  }

  /** The digits after the sign: a `0x`/`0X` prefix selects radix 16,
      otherwise radix 10; the value is that of the longest run of digits,
      and an empty run is `NaN`, modelled as `None`. */
  function ParseMagnitude(u: string): (r: Option<nat>) {
    var hex := |u| >= 2 && u[0] == '0' && (u[1] == 'x' || u[1] == 'X');
    var radix := if hex then 16 else 10;
    var body := if hex then u[2..] else u;
    var n := DigitRun(body, radix);
    if n == 0 then None else Some(DigitsValue(body[..n], radix))
  }

  /** One optional sign followed by the magnitude; `-0` is the integer 0. */
  function ParseSigned(t: string): (r: Option<int>) {
    var negative := |t| > 0 && t[0] == '-';
    var u := if |t| > 0 && (t[0] == '-' || t[0] == '+') then t[1..] else t;
    match ParseMagnitude(u)
    case None => None
    case Some(m) => Some(if negative then -(m as int) else m)
  }

  /** The global `parseInt(s)` with no radix argument: skip leading white
      space, then read a signed magnitude. */
  function ParseInt(s: string): (r: Option<int>)
    ensures (forall i :: 0 <= i < |s| ==> IsJsSpace(s[i])) ==> r.None?
  {
    if |s| > 0 && IsJsSpace(s[0]) then ParseInt(s[1..]) else ParseSigned(s)
  }

  /** `parseInt(s) || 0`: `NaN` and both zeros are falsy and become 0. */
  function IntOrZero(s: string): (r: int)
    ensures ParseInt(s).None? ==> r == 0
    ensures ParseInt(s).Some? ==> r == ParseInt(s).value
  {
    ParseInt(s).GetOr(0)
  }

  // ---------------------------------------------------------------- rendering

  function DigitChar(d: nat): (c: char)
    requires d < 10
    ensures '0' <= c <= '9' && DigitValue(c) == d
  {
    ('0' as int + d) as char
  }

  /** The decimal rendering of a natural number, as `String(n)` writes it. */
  function NatToString(n: nat): (s: string)
    ensures |s| > 0
    ensures forall i :: 0 <= i < |s| ==> '0' <= s[i] <= '9'
    ensures |s| > 1 ==> s[0] != '0'
  {
    if n < 10 then [DigitChar(n)] else NatToString(n / 10) + [DigitChar(n % 10)]
  }

  /** The decimal rendering of an integer, with a leading `-` when negative. */
  function IntToString(n: int): (s: string)
    ensures |s| > 0
  {
    if n < 0 then "-" + NatToString(-n) else NatToString(n)
  }

  lemma {:induction false} NatToStringValue(n: nat)
    ensures DigitsValue(NatToString(n), 10) == n
    decreases n
  {
    var s := NatToString(n);
    if n >= 10 {
      NatToStringValue(n / 10);
      assert s[..|s| - 1] == NatToString(n / 10);
    }
  }

  lemma DigitRunAllDigits(s: string, radix: nat)
    requires forall i :: 0 <= i < |s| ==> IsDigitIn(s[i], radix)
    ensures DigitRun(s, radix) == |s|
  {
  }

  lemma ParseMagnitudeOfDecimal(n: nat)
    ensures ParseMagnitude(NatToString(n)) == Some(n)
  {
    var d := NatToString(n);
    assert !(|d| >= 2 && d[1] == 'x') && !(|d| >= 2 && d[1] == 'X');
    DigitRunAllDigits(d, 10);
    assert d[..|d|] == d;
    NatToStringValue(n);
  }

  lemma ParseSignedDecimal(n: nat)
    ensures ParseSigned(NatToString(n)) == Some(n)
    ensures ParseSigned("-" + NatToString(n)) == Some(-(n as int))
  {
    var d := NatToString(n);
    ParseMagnitudeOfDecimal(n);
    assert d[0] != '-' && d[0] != '+';
    assert ("-" + d)[1..] == d;
  }

  /** Writing a quantity into a field and reading it back with `parseInt`
      gives the same quantity. */
  lemma ParseIntRoundTrip(n: int)
    ensures ParseInt(IntToString(n)) == Some(n)
  {
    var s := IntToString(n);
    assert '0' <= NatToString(if n < 0 then -n else n)[0] <= '9';
    assert !IsJsSpace(s[0]);
    ParseSignedDecimal(if n < 0 then -n else n);
  }
}

=== FILE: wrappers.dfy ===
/** Failure-carrying values used across the model: `Option` for a value
    that may be missing (a JavaScript `NaN`, `undefined` or absent map key)
    and `Result` for an operation the client rejects with a message. */
module Wrappers {

  datatype Option<+T> = None | Some(value: T) {

    /** The wrapped value, or `fallback` when there is none (JavaScript's
        `x || default` on a value that is either falsy-missing or present). */
    function GetOr(fallback: T): (v: T)
      ensures Some? ==> v == value
      ensures None? ==> v == fallback
    {
      if Some? then value else fallback
    }
  }

  datatype Result<+R, +E> = Success(value: R) | Failure(error: E)
}
